=== FILE: README.md ===
# mecha-troll dice interpreter, modelled in Dafny

mecha-troll reads dice notation such as `3d6`, `sum 3d6` or `(1d6) d d6`
and evaluates it to a list of 16-bit numbers. Its core has two parts, and
the model follows both:

- **The reader** (`src/troll/reader.rs`) is a nom 5 grammar. It builds a
  three-type syntax tree: `Atom` (`ConstVal(u8)`, `Roll(Atom)`, `Sum(Tuple)`),
  `Tuple` (`Dice(count, face)`) and `Expr` (an atom or a tuple).
  - `reader.dfy` (module `Reader`) has one function per grammar rule. Each
    returns the unconsumed input and the tree, or a failure of one of nom's
    two kinds: a recoverable `Error` or `Incomplete`.
  - `nom.dfy` (module `Nom`) reproduces the nom primitives the grammar uses,
    as far as the grammar can observe them:
    - `tag!` and `char!` are the streaming versions. Input that is a proper
      prefix of the expected text, the empty input included, asks for more.
    - `digit1` is the complete version.
    - The whitespace skipper inside `ws!` is modelled as asking for more on
      input that is all whitespace or empty. A skipper that succeeded there
      would give the same outcomes on every input of this grammar: what
      follows is always a streaming `char!`, a streaming `tag!` or an atom
      on empty input, each of which asks for more, and under `sum`,
      `complete!` turns either into an error.
    - `alt!` tries its next branch only after an `Error`.
    - `complete!` turns `Incomplete` into `Error`.
    - `opt!` swallows only an `Error`.
  - Termination: every cycle `dice → atom → atom_raw → roll | sum | "("`
    consumes input before it recurses. The measure is the input length plus
    a rank per rule, and every parser promises that what it leaves is a
    proper suffix of its input.
- **The evaluator** (`src/troll/eval.rs`) walks the tree. `eval.dfy`
  (module `Evaluator`) models it.
  - The thread-local random generator becomes a stream of draws
    `rng: nat -> nat` and a cursor `k`, the index of the next unused draw.
  - A die of `n` faces reads `rng(k) % n + 1`, in place of
    `gen_range(0, n) + 1`, and moves the cursor one step.
  - Every evaluation returns the cursor it leaves behind, so draws are used
    in exactly the order the source makes them.
  - `eval_expr`, `eval_atom` and `eval` are functions.
  - `eval_tuple` is the method `EvalTuple`. It keeps the source's `while`
    loop with its early return, and is proved equal to the function
    `TupleOutcome`. `TupleOutcome` and `Rolls` are the specification about
    which the lemmas speak.

`reader_tests.dfy` and `eval_tests.dfy` prove the source's in-file test
cases about the model. The evaluator's tests hold for every stream of draws.
They also prove the behaviour of some inputs that the streaming primitives
decide:

- `1` alone is a parse error. `roll` takes the `1` for its optional prefix,
  then asks for more input at the end, and `alt!` does not fall back to
  `constval` on that.
- `3d` evaluates to `[3]`. The dice rule asks for more input, `tuple`'s
  `complete!` turns that into an error, `expr` falls back to the atom `3`,
  and `eval` discards the trailing `d`.
- A face count of `1` at the end of the input trips the same streaming
  `1`: `d1` is a parse error, and `3d1` evaluates to `[3]`, not to three
  ones. The `1` after `d` is taken for the optional prefix of a nested
  roll, which then asks for more input. In `3d1`, `tuple`'s `complete!`
  turns that into an error, `expr` falls back to the atom `3`, and `eval`
  discards the trailing `d1`.
- `1234` is a parse error, because the literal does not fit in 8 bits.
- `d0` parses, but fails to evaluate.

Every literal up to 255 parses to `ConstVal(N)` except `1` alone: `roll`
takes that `1` as its optional prefix and then asks for more input
(`Reader.LiteralParses`, `ReaderTests.LiteralOneIsIncomplete`).

## Model

| member | source | states |
|---|---|---|
| Nom.Span | src/troll/reader.rs:25 | the count is the longest prefix whose characters all pass the test, the greedy run `digit1` takes |
| Nom.Sp | src/troll/reader.rs:34 | asks for more exactly when the input is all whitespace; otherwise leaves a suffix that starts with a non-space and skips only whitespace |
| Nom.Tag | src/troll/reader.rs:33 | succeeds exactly on input starting with the tag and leaves the input after it; asks for more exactly on a proper prefix of the tag |
| Nom.Char | src/troll/reader.rs:34 | succeeds exactly on input starting with the character; asks for more exactly on empty input |
| Nom.WsChar | src/troll/reader.rs:34 | a success consumes at least one character |
| Nom.WsTag | src/troll/reader.rs:45 | a success consumes at least one character |
| Nom.SpAfterSpace | src/troll/reader.rs:34 | whitespace before the input does not change what the skipper leaves |
| Reader.DigitsValue | src/troll/reader.rs:26 | the decimal value of `n` digits is below `10^n`, and at least `10^(n-1)` without a leading zero |
| Reader.LongLiteralRejected | src/troll/reader.rs:23-28 | four or more digits without a leading zero exceed 255, so `constval` rejects them with a recoverable error |
| Reader.ParseConstval | src/troll/reader.rs:23-28 | a success starts at a digit, yields a `ConstVal` and stops just before the next non-digit; every failure is recoverable |
| Reader.ConstvalMaximalRun | src/troll/reader.rs:23-28 | for a digit run followed by a non-digit, the result is `ConstVal(value)` with the rest untouched when the value is at most 255, and a recoverable error otherwise |
| Reader.ParseRoll | src/troll/reader.rs:30-39 | a success yields a `Roll` node and consumes input |
| Reader.RollOptionalOne | src/troll/reader.rs:33 | a leading `1` before the operator gives the same outcome as its absence, unless another `1` follows |
| Reader.RollIgnoresSpace | src/troll/reader.rs:34 | whitespace on either side of `d` changes nothing |
| Reader.WsCharIgnoresSpace | src/troll/reader.rs:34 | whitespace on either side of the operator changes nothing in `ws!(char!('d'))` |
| Reader.RollNests | src/troll/reader.rs:30-39 | `d` followed by a roll gives `Roll` of that roll with the roll's remainder, so rolls nest |
| Reader.RollOfAtom | src/troll/reader.rs:30-39 | `d` followed by any atom that does not start with whitespace gives `Roll` of that atom with the atom's remainder |
| Reader.RollRejectsLiteral | src/troll/reader.rs:33-34 | a literal other than `1` is a recoverable error for `roll`, so `alt!` reaches `constval` |
| Reader.ParseSum | src/troll/reader.rs:41-51 | a success yields a `Sum` node and consumes input; every failure is recoverable |
| Reader.SumAtKeyword | src/troll/reader.rs:41-51 | on input starting with the keyword, `sum` skips whitespace, reads a tuple and wraps exactly that tuple with its remainder; any failure on the way is a recoverable error |
| Reader.SumNeedsKeyword | src/troll/reader.rs:45 | a successful `sum` has the keyword right after its leading whitespace, and parses the same once that whitespace is skipped |
| Reader.WsTagIgnoresSpace | src/troll/reader.rs:45 | whitespace on either side of the keyword changes nothing in `ws!(tag!("sum"))` |
| Reader.SumIgnoresSpace | src/troll/reader.rs:45 | whitespace on either side of `sum` changes nothing |
| Reader.ParseAtomRaw | src/troll/reader.rs:53-55 | `roll`'s outcome unless it is a recoverable error, so `roll` asking for more ends the choice; after that, a successful `constval`; otherwise `sum`'s outcome; a success consumes input |
| Reader.AtomRawOfSum | src/troll/reader.rs:53-55 | on the keyword `sum`, after any whitespace, `atom_raw` reaches its third branch and gives `sum`'s outcome |
| Reader.KeywordIsNoRollOrLiteral | src/troll/reader.rs:53-54 | whitespace and then `sum` is a recoverable error for both `roll` and `constval` |
| Reader.OpenParenIsNoAtomRaw | src/troll/reader.rs:53-55 | input opening with `(` is a recoverable error for all three branches of `atom_raw` |
| Reader.ParseAtom | src/troll/reader.rs:57-59 | whenever `atom_raw` succeeds or asks for more, that is the outcome; after a recoverable `atom_raw` error, input not opening with `(` is a recoverable error; a success consumes input |
| Reader.ParenthesisedAtom | src/troll/reader.rs:58 | `(` then an `atom_raw` whose remainder opens with `)` is that atom, with what follows the `)` left over |
| Reader.ParenthesisedAtomFails | src/troll/reader.rs:58 | after `(`, a failing `atom_raw` is passed on with its kind; an `atom_raw` that ends the input asks for more for the `)`; one followed by anything but `)` is a recoverable error |
| Reader.RollAtEnd | src/troll/reader.rs:33 | `roll` on empty or all-whitespace input asks for more, from the streaming tag for the optional `1` |
| Reader.AtomParenthesisedOnly | src/troll/reader.rs:57-59 | an atom that is no bare `atom_raw` opens with `(`, and is the `atom_raw` after it, whose remainder is `)` followed by the atom's remainder |
| Reader.AtomTakesRoll | src/troll/reader.rs:53-59 | wherever `roll` succeeds, `atom` gives exactly its outcome |
| Reader.AtomOfLiteral | src/troll/reader.rs:53-59 | a literal other than `1` that fits in 8 bits, followed by a non-digit, is the atom `ConstVal(value)` with the rest untouched |
| Reader.ParseDice | src/troll/reader.rs:61-69 | succeeds exactly when `atom` and then `roll` on the rest succeed, with the count `atom` reads and the whole node `roll` builds, and `roll`'s remainder; a failure of either is the outcome, of the same kind; a success consumes input |
| Reader.ParseTuple | src/troll/reader.rs:71-73 | fails, always recoverably, exactly when `dice` fails, and otherwise is `dice`'s result |
| Reader.ParseExpr | src/troll/reader.rs:75-80 | when `tuple` succeeds, its tree and remainder are the result; otherwise the atom's tree and remainder; when both fail, the atom's failure |
| Reader.LiteralParses | src/troll/reader.rs:75-80 | every literal other than `1` up to 255 parses as a whole to `ConstVal(value)` |
| ReaderTests.ConstvalExamples | src/troll/reader.rs:84-86 | `123` and `123abc` give `ConstVal(123)` with remainders "" and "abc"; `1234` is a recoverable error |
| ReaderTests.RollExamples | src/troll/reader.rs:87-89 | `1d6` and `d6` give `Roll(ConstVal 6)`; `dd6` gives `Roll(Roll(ConstVal 6))` |
| ReaderTests.SumExample | src/troll/reader.rs:90 | ` sum  3d6` gives `Sum(Dice(ConstVal 3, Roll(ConstVal 6)))` |
| ReaderTests.DiceExamples | src/troll/reader.rs:95-100 | `3d6` and `3 d 6` give the same tree; `(1d6) d d6` gives `Dice(Roll 6, Roll(Roll 6))` |
| ReaderTests.DiceWithoutFace | src/troll/reader.rs:101 | `3d` asks for more input |
| ReaderTests.ExprExamples | src/troll/reader.rs:106-111 | `(1d6) d d6` is a tuple expression; `d6` falls back to an atom expression |
| ReaderTests.LiteralOneIsIncomplete | src/troll/reader.rs:30-39 | `1` alone asks for more input instead of parsing as a literal |
| ReaderTests.TooLargeLiteral | src/troll/reader.rs:26 | `1234` is a recoverable error for `expr` |
| ReaderTests.TrailingOperator | src/troll/reader.rs:75-80 | `3d` gives the atom `3` and leaves `d` |
| ReaderTests.FaceOneIsIncomplete | src/troll/reader.rs:30-39 | `d1` asks for more input: the face count `1` is taken for a nested roll's optional `1` |
| ReaderTests.TrailingFaceOne | src/troll/reader.rs:75-80 | `3d1` gives the atom `3` and leaves `d1` |
| Evaluator.RollDie | src/troll/eval.rs:50-53 | succeeds exactly for at least one face, with a value in `[1, size]`, using one draw; a die without faces is `InvalidDieSize` |
| Evaluator.RollReachesEveryFace | src/troll/eval.rs:50-53 | every face in `[1, size]` comes up for some stream of draws |
| Evaluator.EvalAtom | src/troll/eval.rs:23-29 | never moves the cursor back; never fails with a parse error |
| Evaluator.ErrorsPropagate | src/troll/eval.rs:26-27 | a failing face count of a roll, a failing tuple under a sum and a failing count of a tuple each surface unchanged as the whole result's error |
| Evaluator.SumOfZeroSided | src/troll/eval.rs:27 | `sum Nd0` with `N >= 1` fails with `InvalidDieSize`, the first die's error, never with `Overflow` |
| Evaluator.RollWithin | src/troll/eval.rs:26 | a roll succeeds exactly when its face count evaluates to at least 1, and then lies in `[1, face count]`; a face count of 0 gives `InvalidDieSize` |
| Evaluator.SumAddsUp | src/troll/eval.rs:27 | a sum is the 16-bit left fold `Iterator::sum` computes over the tuple's values, and `Overflow` exactly when a partial sum of that fold leaves 16 bits |
| Evaluator.CheckedSum | src/troll/eval.rs:27 | the `u16` left fold `Iterator::sum` computes; a result is at least every value it adds |
| Evaluator.CheckedSumOverflowStays | src/troll/eval.rs:27 | once a partial sum leaves 16 bits, no further values bring the fold back, so `None` comes from the first partial sum above 65535 |
| Evaluator.CheckedSumAgrees | src/troll/eval.rs:27 | the 16-bit left fold overflows exactly when the plain total exceeds 65535, and otherwise equals it |
| Evaluator.SeqSum | src/troll/eval.rs:27 | no value exceeds the total |
| Evaluator.SeqSumAppend | src/troll/eval.rs:27 | adding values one at a time from the left gives the same total |
| Evaluator.SeqSumWithin | src/troll/eval.rs:27 | `n` values within `[lo, hi]` total within `[n * lo, n * hi]` |
| Evaluator.TupleOutcome | src/troll/eval.rs:31-48 | a success has exactly as many values as the count evaluates to; it never fails with a parse error |
| Evaluator.Rolls | src/troll/eval.rs:36-45 | a success has exactly `m` values and never moves the cursor back |
| Evaluator.EvalTuple | src/troll/eval.rs:31-48 | the loop returns exactly the tuple's specified outcome, with at most `n` values while it runs |
| Evaluator.RollsFailureStays | src/troll/eval.rs:39-42 | once a die fails, the whole run fails with that same error and returns no values |
| Evaluator.RollsPrefix | src/troll/eval.rs:36-45 | the first `i` values of a successful run are the run of `i` dice |
| Evaluator.RollsElement | src/troll/eval.rs:38-41 | die `i` is a fresh evaluation of the face, made at the draw where the first `i` dice stopped |
| Evaluator.RollsWithin | src/troll/eval.rs:36-45 | a face whose every evaluation lies in `[lo, hi]` gives exactly `m` values, all in `[lo, hi]` |
| Evaluator.DiceWithin | src/troll/eval.rs:31-48 | `NdS` with `S >= 1` gives exactly `N` values, each in `[1, S]` |
| Evaluator.SumOfDiceWithin | src/troll/eval.rs:27 | `sum NdS` with `S >= 1` is one value in `[N, N * S]`; for 8-bit constants this never overflows |
| Evaluator.EvalExpr | src/troll/eval.rs:16-21 | an atom gives exactly one value, its own evaluation; a tuple gives its own sequence, not wrapped again |
| Evaluator.Eval | src/troll/eval.rs:9-14 | the result is a parse error exactly when parsing fails, whether as `Error` or `Incomplete`; otherwise the parsed tree is evaluated from the first draw and leftover input is ignored |
| EvalTests.EvalRollSix | src/troll/eval.rs:55-66 | `d6` is one value in `[1, 6]` for every stream of draws |
| EvalTests.EvalThreeSix | src/troll/eval.rs:68-83 | `3d6` is three values, each in `[1, 6]` |
| EvalTests.EvalSumThreeSix | src/troll/eval.rs:85-96 | `sum 3d6` is one value in `[3, 18]` |
| EvalTests.EvalNestedDice | src/troll/eval.rs:31-48 | `(1d6) d d6` is between 1 and 6 values, each in `[1, 6]` |
| EvalTests.EvalTrailingOperator | src/troll/eval.rs:9-14 | `3d` evaluates to `[3]` and makes no draw |
| EvalTests.EvalLoneOne | src/troll/eval.rs:12 | `1` is a parse error |
| EvalTests.EvalFaceOneAlone | src/troll/eval.rs:12 | `d1` is a parse error |
| EvalTests.EvalTrailingFaceOne | src/troll/eval.rs:9-14 | `3d1` evaluates to `[3]`, not to three ones, and makes no draw |
| EvalTests.EvalTooLarge | src/troll/eval.rs:12 | `1234` is a parse error |
| EvalTests.EvalZeroSided | src/troll/eval.rs:52 | `d0` parses but gives `InvalidDieSize` |
| EvalTests.LiteralEvaluates | src/troll/eval.rs:25 | every literal other than `1` up to 255 evaluates to itself, as one value and with no draw |

## Left out

- `src/main.rs` only prints three results. It is I/O and not part of this
  model.
- The random generator's internals and the statistical uniformity of its
  draws are not modelled. A draw is an arbitrary natural number from a
  caller-supplied stream. The model proves range bounds and that every face
  can come up, but not fairness.
- A die without faces makes `gen_range(0, 0)` panic on its empty range.
  The model makes it the error `InvalidDieSize`.
- A `Sum` whose total exceeds 65535 overflows the 16-bit `sum()`, which
  panics in a debug build and wraps around in a release build. The model
  makes it the error `Overflow` and copies neither behaviour.
- nom's failure payloads (the input position, the `ErrorKind`, the
  `Needed` size) are not kept. Only the kind of a failure (`Error` or
  `Incomplete`) and the remaining input are modelled. The test at
  `src/troll/reader.rs:86` also names `MapRes` and the input; the model
  states only that this failure is recoverable.
- The source's `Err(&'static str)` results become a three-valued
  `EvalError`. `ParseError` is the source's `"Parse error"`.
- nom's macros are not modelled as combinators in general. Only the
  observable behaviour the grammar relies on is kept.

=== FILE: eval.dfy ===
/** The interpreter: walks a parsed tree and produces a sequence of 16-bit
    results. The process-wide random generator is replaced by an explicit
    stream of draws `rng` and a cursor `k`, the index of the next unused draw;
    every evaluation returns the cursor it leaves behind, so draws are consumed
    left to right in the order the source makes them. */
module Evaluator {
  import opened Nom
  import opened Reader

  type uint16 = x: int | 0 <= x < 0x1_0000

  /** The stream of raw random numbers; `rng(k)` is the `k`-th draw. */
  type Rng = nat -> nat

  /** `ParseError` is the source's only error ("Parse error"). A zero-sided
      die makes `gen_range(0, 0)` panic on its empty range, and a sum beyond
      16 bits overflows the `u16` addition (a panic in a debug build,
      wrap-around in a release build); here both are errors of their own. */
  datatype EvalError = ParseError | InvalidDieSize | Overflow

  /** A result with the index of the next unused draw, or an error. */
  datatype Outcome<+T> = Ok(value: T, next: nat) | Err(error: EvalError)

  /** `roll`: one draw of a die with `size` faces, `gen_range(0, size) + 1`
      with the draw taken from the stream. */
  function RollDie(size: uint16, rng: Rng, k: nat): (r: Outcome<uint16>)
    ensures r.Ok? <==> size >= 1
    ensures r.Err? ==> r.error == InvalidDieSize
    ensures r.Ok? ==> 1 <= r.value <= size && r.next == k + 1
  {
    if size == 0 then Err(InvalidDieSize) else Ok(rng(k) % size + 1, k + 1)
  }

  /** The arithmetic sum of a sequence, without any width limit. */
  function SeqSum(vs: seq<uint16>): (total: nat)
    ensures forall i | 0 <= i < |vs| :: vs[i] <= total
  {
    if vs == [] then 0 else vs[0] + SeqSum(vs[1..])
  }

  datatype Option<+T> = None | Some(value: T)

  /** `Iterator::sum` over `u16`: the values added one at a time from the
      left in 16-bit arithmetic; `None` from the first partial sum that
      leaves 16 bits, where a debug build panics. */
  function CheckedSum(vs: seq<uint16>): (r: Option<uint16>)
    ensures r.Some? ==> forall i | 0 <= i < |vs| :: vs[i] <= r.value
  {
    if vs == [] then Some(0)
    else
      var init, last := vs[..|vs| - 1], vs[|vs| - 1];
      assert forall i | 0 <= i < |init| :: init[i] == vs[i];
      match CheckedSum(init)
      case None => None
      case Some(acc) =>
        if acc + last < 0x1_0000 then Some(acc + last) else None
  }

  /** `eval_atom`: a constant is widened unchanged, a roll first evaluates
      its face count and then draws, a sum adds up its tuple. */
  function EvalAtom(a: Atom, rng: Rng, k: nat): (r: Outcome<uint16>)
    decreases a, 0
    ensures r.Ok? ==> k <= r.next
    ensures r.Err? ==> r.error != ParseError
  {
    match a
    case ConstVal(c) => Ok(c, k)
    case Roll(inner) =>
      (match EvalAtom(inner, rng, k)
       case Err(e) => Err(e)
       case Ok(size, k1) => RollDie(size, rng, k1))
    case Sum(t) =>
      (match TupleOutcome(t, rng, k)
       case Err(e) => Err(e)
       case Ok(vs, k1) =>
         var total := SeqSum(vs);
         if total < 0x1_0000 then Ok(total, k1) else Err(Overflow))
  }

  /** What `eval_tuple` computes: the count is evaluated once, then the face
      that many times. */
  function TupleOutcome(t: Tuple, rng: Rng, k: nat): (r: Outcome<seq<uint16>>)
    decreases t, 0
    ensures r.Ok? ==> k <= r.next
    ensures r.Err? ==> r.error != ParseError
    ensures r.Ok? ==> EvalAtom(t.count, rng, k).Ok? && |r.value| == EvalAtom(t.count, rng, k).value
  {
    match EvalAtom(t.count, rng, k)
    case Err(e) => Err(e)
    case Ok(n, k1) => Rolls(t.face, n, rng, k1)
  }

  /** The first `m` fresh evaluations of `face`, in the order they are made,
      starting at draw `k`; the first failure is the outcome. */
  function Rolls(face: Atom, m: nat, rng: Rng, k: nat): (r: Outcome<seq<uint16>>)
    decreases face, m
    ensures r.Ok? ==> |r.value| == m && k <= r.next
    ensures r.Err? ==> r.error != ParseError
  {
    if m == 0 then Ok([], k)
    else
      match Rolls(face, m - 1, rng, k)
      case Err(e) => Err(e)
      case Ok(vs, k1) =>
        match EvalAtom(face, rng, k1)
        case Err(e) => Err(e)
        case Ok(v, k2) => Ok(vs + [v], k2)
  }

  /** `eval_tuple`: grows the result one die at a time and stops at the first
      failing die, returning its error and none of the values before it. */
  method EvalTuple(t: Tuple, rng: Rng, k: nat) returns (r: Outcome<seq<uint16>>)
    ensures r == TupleOutcome(t, rng, k)
  {
    var count := EvalAtom(t.count, rng, k);
    if count.Err? {
      return Err(count.error);
    }
    var n := count.value;
    var vec: seq<uint16> := [];
    var cursor := count.next;
    while |vec| < n
      invariant |vec| <= n
      invariant Rolls(t.face, |vec|, rng, count.next) == Ok(vec, cursor)
    {
      var res := EvalAtom(t.face, rng, cursor);
      match res {
        case Ok(val, next) =>
          vec := vec + [val];
          cursor := next;
        case Err(e) =>
          RollsFailureStays(t.face, |vec| + 1, n, rng, count.next);
          return Err(e);
      }
    }
    return Ok(vec, cursor);
  }

  /** `eval_expr`: an atom gives a one-element sequence, a tuple its own
      sequence, not wrapped again. */
  function EvalExpr(e: Expr, rng: Rng, k: nat): (r: Outcome<seq<uint16>>)
    ensures e.AtomExpr? ==> (r.Ok? <==> EvalAtom(e.atom, rng, k).Ok?)
    ensures e.AtomExpr? && r.Ok? ==> r.value == [EvalAtom(e.atom, rng, k).value]
    ensures e.TupleExpr? ==> r == TupleOutcome(e.tuple, rng, k)
    ensures r.Err? ==> r.error != ParseError
  {
    match e
    case AtomExpr(a) =>
      (match EvalAtom(a, rng, k)
       case Err(err) => Err(err)
       case Ok(v, k1) => Ok([v], k1))
    case TupleExpr(t) => TupleOutcome(t, rng, k)
  }

  /** `eval`: parse, then evaluate from the first draw. Both kinds of parse
      failure become the one parse error; input left after the expression is
      ignored. */
  function Eval(src: string, rng: Rng): (r: Outcome<seq<uint16>>)
    ensures r == Err(ParseError) <==> ParseExpr(src).Fail?
    ensures ParseExpr(src).Done? ==> r == EvalExpr(ParseExpr(src).value, rng, 0)
  {
    match ParseExpr(src)
    case Fail(_) => Err(ParseError)
    case Done(_, e) => EvalExpr(e, rng, 0)
  }

  // ---------------------------------------------------------------------
  // Properties of the evaluator

  /** Once a die fails, every longer run of dice fails with the same error:
      no partial sequence survives. */
  lemma {:induction false} RollsFailureStays(face: Atom, j: nat, m: nat, rng: Rng, k: nat)
    requires j <= m && Rolls(face, j, rng, k).Err?
    ensures Rolls(face, m, rng, k) == Rolls(face, j, rng, k)
  {
    if m > j {
      RollsFailureStays(face, j, m - 1, rng, k);
    }
  }

  /** The first `i` dice of a successful run are the run of `i` dice. */
  lemma {:induction false} RollsPrefix(face: Atom, i: nat, m: nat, rng: Rng, k: nat)
    requires i <= m && Rolls(face, m, rng, k).Ok?
    ensures Rolls(face, i, rng, k).Ok?
    ensures Rolls(face, i, rng, k).value == Rolls(face, m, rng, k).value[..i]
  {
    if i < m {
      RollsPrefix(face, i, m - 1, rng, k);
      var vs := Rolls(face, m - 1, rng, k).value;
      assert Rolls(face, m, rng, k).value[..i] == vs[..i];
    } else {
      assert Rolls(face, m, rng, k).value[..i] == Rolls(face, m, rng, k).value;
    }
  }

  /** Die `i` of a successful run is a fresh evaluation of the face, made at
      the draw where the first `i` dice stopped. */
  lemma RollsElement(face: Atom, i: nat, m: nat, rng: Rng, k: nat)
    requires i < m && Rolls(face, m, rng, k).Ok?
    ensures Rolls(face, i, rng, k).Ok? && Rolls(face, i + 1, rng, k).Ok?
    ensures EvalAtom(face, rng, Rolls(face, i, rng, k).next) ==
      Ok(Rolls(face, m, rng, k).value[i], Rolls(face, i + 1, rng, k).next)
  {
    RollsPrefix(face, i + 1, m, rng, k);
    var vs := Rolls(face, i + 1, rng, k).value;
    assert vs[i] == Rolls(face, m, rng, k).value[..i + 1][i];
  }

  /** A face whose every evaluation succeeds within `[lo, hi]` gives a run of
      exactly `m` dice, all within `[lo, hi]`. */
  lemma {:induction false} RollsWithin(face: Atom, m: nat, rng: Rng, k: nat, lo: int, hi: int)
    requires forall j: nat :: EvalAtom(face, rng, j).Ok? && lo <= EvalAtom(face, rng, j).value <= hi
    ensures Rolls(face, m, rng, k).Ok? && |Rolls(face, m, rng, k).value| == m
    ensures forall i | 0 <= i < m :: lo <= Rolls(face, m, rng, k).value[i] <= hi
  {
    if m > 0 {
      RollsWithin(face, m - 1, rng, k, lo, hi);
      var k1 := Rolls(face, m - 1, rng, k).next;
      assert EvalAtom(face, rng, k1).Ok?;
    }
  }

  /** A sum of `n` values within `[lo, hi]` lies within `[n * lo, n * hi]`. */
  lemma {:induction false} SeqSumWithin(vs: seq<uint16>, lo: int, hi: int)
    requires forall i | 0 <= i < |vs| :: lo <= vs[i] <= hi
    ensures |vs| * lo <= SeqSum(vs) <= |vs| * hi
  {
    if vs != [] {
      SeqSumWithin(vs[1..], lo, hi);
      assert |vs| * lo == lo + (|vs| - 1) * lo;
      assert |vs| * hi == hi + (|vs| - 1) * hi;
    }
  }

  /** Adding the values one at a time from the left, as an iterator sum
      does, gives the same total. */
  lemma {:induction false} SeqSumAppend(vs: seq<uint16>, v: uint16)
    ensures SeqSum(vs + [v]) == SeqSum(vs) + v
  {
    if vs != [] {
      assert (vs + [v])[1..] == vs[1..] + [v];
      SeqSumAppend(vs[1..], v);
    }
  }

  /** The 16-bit left fold overflows exactly when the plain total leaves 16
      bits (no value is negative, so partial sums only grow), and otherwise
      is that total. */
  lemma {:induction false} CheckedSumAgrees(vs: seq<uint16>)
    ensures CheckedSum(vs).Some? <==> SeqSum(vs) < 0x1_0000
    ensures CheckedSum(vs).Some? ==> CheckedSum(vs).value == SeqSum(vs)
  {
    if vs != [] {
      var p := vs[..|vs| - 1];
      CheckedSumAgrees(p);
      assert p + [vs[|vs| - 1]] == vs;
      SeqSumAppend(p, vs[|vs| - 1]);
    }
  }

  /** Once a partial sum has left 16 bits, no further values bring the
      16-bit fold back. */
  lemma {:induction false} CheckedSumOverflowStays(vs: seq<uint16>, ws: seq<uint16>)
    requires CheckedSum(vs).None?
    ensures CheckedSum(vs + ws).None?
  {
    if ws != [] {
      var init := ws[..|ws| - 1];
      CheckedSumOverflowStays(vs, init);
      assert (vs + ws)[..|vs + ws| - 1] == vs + init;
    } else {
      assert vs + ws == vs;
    }
  }

  /** A sum is what the source's 16-bit iterator sum gives for the tuple's
      values: that sum when no partial sum overflows, and `Overflow` exactly
      when one does. */
  lemma SumAddsUp(t: Tuple, rng: Rng, k: nat)
    ensures EvalAtom(Sum(t), rng, k).Ok? <==>
      TupleOutcome(t, rng, k).Ok? && CheckedSum(TupleOutcome(t, rng, k).value).Some?
    ensures EvalAtom(Sum(t), rng, k).Ok? ==>
      EvalAtom(Sum(t), rng, k) ==
        Ok(CheckedSum(TupleOutcome(t, rng, k).value).value, TupleOutcome(t, rng, k).next)
    ensures TupleOutcome(t, rng, k).Ok? && CheckedSum(TupleOutcome(t, rng, k).value).None? ==>
      EvalAtom(Sum(t), rng, k) == Err(Overflow)
  {
    if TupleOutcome(t, rng, k).Ok? {
      CheckedSumAgrees(TupleOutcome(t, rng, k).value);
    }
  }

  /** The first failure aborts the whole evaluation with its own error: a
      failing face count of a roll, a failing tuple under a sum, and a
      failing count of a tuple each surface unchanged. */
  lemma ErrorsPropagate(inner: Atom, t: Tuple, rng: Rng, k: nat)
    ensures EvalAtom(inner, rng, k).Err? ==>
      EvalAtom(Roll(inner), rng, k) == Err(EvalAtom(inner, rng, k).error)
    ensures TupleOutcome(t, rng, k).Err? ==>
      EvalAtom(Sum(t), rng, k) == Err(TupleOutcome(t, rng, k).error)
    ensures EvalAtom(t.count, rng, k).Err? ==>
      TupleOutcome(t, rng, k) == Err(EvalAtom(t.count, rng, k).error)
  {
  }

  /** `sum Nd0` with `N >= 1` fails as an invalid die, not as an overflow:
      the first die's error is the error of the whole sum. */
  lemma {:induction false} SumOfZeroSided(count: uint8, rng: Rng, k: nat)
    requires count >= 1
    ensures EvalAtom(Sum(Dice(ConstVal(count), Roll(ConstVal(0)))), rng, k) == Err(InvalidDieSize)
  {
    var face := Roll(ConstVal(0));
    var t := Dice(ConstVal(count), face);
    assert Rolls(face, 0, rng, k) == Ok([], k);
    assert Rolls(face, 1, rng, k) == Err(InvalidDieSize);
    RollsFailureStays(face, 1, count, rng, k);
    assert TupleOutcome(t, rng, k) == Rolls(face, count, rng, k);
  }

  /** A roll succeeds exactly when its face count evaluates to at least 1, and
      then lands in `[1, face count]`; a face count of 0 is an invalid die. */
  lemma RollWithin(inner: Atom, rng: Rng, k: nat)
    ensures EvalAtom(Roll(inner), rng, k).Ok? <==>
      EvalAtom(inner, rng, k).Ok? && EvalAtom(inner, rng, k).value >= 1
    ensures EvalAtom(Roll(inner), rng, k).Ok? ==>
      1 <= EvalAtom(Roll(inner), rng, k).value <= EvalAtom(inner, rng, k).value
    ensures EvalAtom(inner, rng, k).Ok? && EvalAtom(inner, rng, k).value == 0 ==>
      EvalAtom(Roll(inner), rng, k) == Err(InvalidDieSize)
  {
  }

  /** Every face of a die can come up: some stream of draws makes it. */
  lemma RollReachesEveryFace(size: uint16, v: int, k: nat)
    requires 1 <= v <= size
    ensures RollDie(size, (_: nat) => v - 1, k) == Ok(v, k + 1)
  {
    ModBelow(v - 1, size);
  }

  lemma ModBelow(a: int, n: int)
    requires 0 <= a < n
    ensures a % n == a
  {
  }

  /** `NdS` with constant `N` and `S >= 1`: exactly `N` dice, each in `[1, S]`. */
  lemma DiceWithin(count: uint8, size: uint8, rng: Rng, k: nat)
    requires size >= 1
    ensures TupleOutcome(Dice(ConstVal(count), Roll(ConstVal(size))), rng, k).Ok?
    ensures |TupleOutcome(Dice(ConstVal(count), Roll(ConstVal(size))), rng, k).value| == count
    ensures forall i | 0 <= i < count ::
      1 <= TupleOutcome(Dice(ConstVal(count), Roll(ConstVal(size))), rng, k).value[i] <= size
  {
    RollsWithin(Roll(ConstVal(size)), count, rng, k, 1, size);
  }

  /** `sum NdS` with constant `N` and `S >= 1`: one value in `[N, N * S]`.
      Two 8-bit constants multiply to at most 65025, so it never overflows. */
  lemma SumOfDiceWithin(count: uint8, size: uint8, rng: Rng, k: nat)
    requires size >= 1
    ensures EvalAtom(Sum(Dice(ConstVal(count), Roll(ConstVal(size)))), rng, k).Ok?
    ensures count <= EvalAtom(Sum(Dice(ConstVal(count), Roll(ConstVal(size)))), rng, k).value <= count * size
  {
    var t := Dice(ConstVal(count), Roll(ConstVal(size)));
    DiceWithin(count, size, rng, k);
    var vs := TupleOutcome(t, rng, k).value;
    SeqSumWithin(vs, 1, size);
    BytesProduct(count, size);
  }

  lemma BytesProduct(a: uint8, b: uint8)
    ensures a * b <= 255 * 255
  {
    assert 255 * b - a * b == (255 - a) * b;
    assert 255 * b <= 255 * 255;
  }
}

=== FILE: eval_tests.dfy ===
/** The in-file test cases of the interpreter, proved about the model for
    every stream of draws, plus the inputs whose outcome the grammar's
    streaming behaviour decides. As with the grammar's cases, each parsing
    step is a lemma of its own. */
module EvalTests {
  import opened Nom
  import opened Reader
  import opened Evaluator
  import opened ReaderTests

  lemma ParseRollSix()
    ensures ParseExpr("d6") == Done("", AtomExpr(Roll(ConstVal(6))))
  {
    ExprExamples();
  }

  lemma ParseThreeSix()
    ensures ParseExpr("3d6") == Done("", TupleExpr(Dice(ConstVal(3), Roll(ConstVal(6)))))
  {
    DiceThreeSix();
  }

  lemma SumSpacedStep()
    ensures ParseSum("sum 3d6") == ParseSum("sum3d6")
  {
    var w1: string, w2: string := "", " ";
    assert AllSpace(w1) && AllSpace(w2);
    SumIgnoresSpace(w1, w2, "3d6");
    Splits();
  }

  lemma KeywordIsNoRoll()
    ensures ParseRoll("sum 3d6") == Fail(Error)
  {
    var s := "sum 3d6";
    assert Tag("1", s) == Fail(Error);
    SpAtNonSpace(s);
  }

  lemma AtomSumSpaced()
    ensures ParseAtom("sum 3d6") == Done("", Sum(Dice(ConstVal(3), Roll(ConstVal(6)))))
  {
    SumSpacedStep();
    SumThreeSix();
    KeywordIsNoRoll();
    assert ParseConstval("sum 3d6") == Fail(Error);
  }

  lemma ParseSumThreeSix()
    ensures ParseExpr("sum 3d6") == Done("", AtomExpr(Sum(Dice(ConstVal(3), Roll(ConstVal(6))))))
  {
    AtomSumSpaced();
    assert ParseRoll("") == Fail(Incomplete);
  }

  lemma AtomZero()
    ensures ParseAtom("0") == Done("", ConstVal(0))
  {
    assert "0" == "0" + "";
    assert DigitsValue("0") == 0;
    AtomOfLiteral("0", "");
  }

  lemma RollZero()
    ensures ParseRoll("d0") == Done("", Roll(ConstVal(0)))
  {
    assert "d0" == "d" + "0";
    RollAtOperator("0");
    SpAtNonSpace("0");
    AtomZero();
  }

  lemma ParseRollZero()
    ensures ParseExpr("d0") == Done("", AtomExpr(Roll(ConstVal(0))))
  {
    RollZero();
    AtomTakesRoll("d0");
    assert ParseRoll("") == Fail(Incomplete);
  }

  /** `eval("d6")` is one value between 1 and 6, whatever the draws. */
  lemma EvalRollSix(rng: Rng)
    ensures Eval("d6", rng).Ok? && |Eval("d6", rng).value| == 1
    ensures 1 <= Eval("d6", rng).value[0] <= 6
  {
    ParseRollSix();
    RollWithin(ConstVal(6), rng, 0);
  }

  /** `eval("3d6")` is three values, each between 1 and 6. */
  lemma EvalThreeSix(rng: Rng)
    ensures Eval("3d6", rng).Ok? && |Eval("3d6", rng).value| == 3
    ensures forall i | 0 <= i < 3 :: 1 <= Eval("3d6", rng).value[i] <= 6
  {
    ParseThreeSix();
    DiceWithin(3, 6, rng, 0);
  }

  /** `eval("sum 3d6")` is one value between 3 and 18. */
  lemma EvalSumThreeSix(rng: Rng)
    ensures Eval("sum 3d6", rng).Ok? && |Eval("sum 3d6", rng).value| == 1
    ensures 3 <= Eval("sum 3d6", rng).value[0] <= 18
  {
    ParseSumThreeSix();
    SumOfDiceWithin(3, 6, rng, 0);
  }

  /** A die whose face count is itself a d6 still lands between 1 and 6. */
  lemma RollOfRollWithin(rng: Rng)
    ensures forall j: nat ::
      (EvalAtom(Roll(Roll(ConstVal(6))), rng, j).Ok? &&
       1 <= EvalAtom(Roll(Roll(ConstVal(6))), rng, j).value <= 6)
  {
    forall j: nat
      ensures EvalAtom(Roll(Roll(ConstVal(6))), rng, j).Ok?
      ensures 1 <= EvalAtom(Roll(Roll(ConstVal(6))), rng, j).value <= 6
    {
      RollWithin(ConstVal(6), rng, j);
      RollWithin(Roll(ConstVal(6)), rng, j);
    }
  }

  /** A d6 count of dice whose faces are d6 rolls of a d6: between 1 and 6
      values, each between 1 and 6. */
  lemma NestedDiceWithin(rng: Rng, k: nat, r: Outcome<seq<uint16>>)
    requires r == TupleOutcome(Dice(Roll(ConstVal(6)), Roll(Roll(ConstVal(6)))), rng, k)
    ensures r.Ok? && 1 <= |r.value| <= 6
    ensures forall i | 0 <= i < |r.value| :: 1 <= r.value[i] <= 6
  {
    var count := EvalAtom(Roll(ConstVal(6)), rng, k);
    RollWithin(ConstVal(6), rng, k);
    RollOfRollWithin(rng);
    RollsWithin(Roll(Roll(ConstVal(6))), count.value, rng, count.next, 1, 6);
  }

  /** `eval("(1d6) d d6")` is the outcome of the tuple it parses to. Here
      and in `EvalNestedDice` the input is a parameter fixed by the
      precondition rather than a literal argument: the verifier unfolds a
      parser applied to a literal at every occurrence, which makes these
      proofs too costly. */
  lemma EvalNestedDiceStep(src: string, rng: Rng)
    requires src == "(1d6) d d6"
    ensures Eval(src, rng) ==
      TupleOutcome(Dice(Roll(ConstVal(6)), Roll(Roll(ConstVal(6)))), rng, 0)
  {
    ExprExamples();
  }

  /** `eval("(1d6) d d6")`: between 1 and 6 values, each between 1 and 6. */
  lemma EvalNestedDice(src: string, rng: Rng)
    requires src == "(1d6) d d6"
    ensures Eval(src, rng).Ok? && 1 <= |Eval(src, rng).value| <= 6
    ensures forall i | 0 <= i < |Eval(src, rng).value| :: 1 <= Eval(src, rng).value[i] <= 6
  {
    EvalNestedDiceStep(src, rng);
    NestedDiceWithin(rng, 0, Eval(src, rng));
  }

  /** `eval("3d")` is `[3]`: the dice rule asks for more input, the tuple
      rule turns that into an error, the atom `3` is taken and the trailing
      `d` is ignored. No draw is made. */
  lemma EvalTrailingOperator(rng: Rng)
    ensures Eval("3d", rng) == Ok([3], 0)
  {
    TrailingOperator();
  }

  /** `eval("1")` is a parse error: see `ReaderTests.LiteralOneIsIncomplete`. */
  lemma EvalLoneOne(rng: Rng)
    ensures Eval("1", rng) == Err(ParseError)
  {
    LiteralOneIsIncomplete();
  }

  /** `eval("d1")` is a parse error: see `ReaderTests.FaceOneIsIncomplete`. */
  lemma EvalFaceOneAlone(rng: Rng)
    ensures Eval("d1", rng) == Err(ParseError)
  {
    FaceOneIsIncomplete();
  }

  /** `eval("3d1")` is `[3]`, not three ones: the tuple reading asks for more
      input, the atom `3` is taken and `d1` is ignored. No draw is made. */
  lemma EvalTrailingFaceOne(rng: Rng)
    ensures Eval("3d1", rng) == Ok([3], 0)
  {
    TrailingFaceOne();
  }

  /** `eval("1234")` is a parse error: the literal does not fit in 8 bits. */
  lemma EvalTooLarge(rng: Rng)
    ensures Eval("1234", rng) == Err(ParseError)
  {
    TooLargeLiteral();
  }

  /** `eval("d0")` parses, but a die without faces cannot be rolled. */
  lemma EvalZeroSided(rng: Rng)
    ensures Eval("d0", rng) == Err(InvalidDieSize)
  {
    ParseRollZero();
    RollWithin(ConstVal(0), rng, 0);
  }

  /** A literal other than `1` that fits in 8 bits evaluates to itself, with
      no draw. */
  lemma LiteralEvaluates(d: string, rng: Rng)
    requires |d| > 0 && AllDigits(d) && DigitsValue(d) <= 0xFF && d != "1"
    ensures Eval(d, rng) == Ok([DigitsValue(d)], 0)
  {
    LiteralParses(d);
  }
}

=== FILE: nom.dfy ===
/** The observable behaviour of the nom 5 primitives the dice grammar is built
    from, over `&str` input. Only what the grammar can observe is kept: whether
    a parser succeeded, what input it left, and whether a failure is a
    recoverable error or a request for more input. */
module Nom {

  /** nom's two failure kinds that occur here. `alt!` moves on to its next
      branch only on `Error`; `Incomplete` ends the alternation at once. */
  datatype Failure = Error | Incomplete

  /** nom's `IResult`: the remaining input and the output, or a failure. */
  datatype Parsed<+T> = Done(rest: string, value: T) | Fail(failure: Failure)

  predicate IsSuffix(r: string, s: string) {
    |r| <= |s| && r == s[|s| - |r|..]
  }

  predicate IsProperSuffix(r: string, s: string) {
    |r| < |s| && r == s[|s| - |r|..]
  }

  lemma SuffixTransitive(a: string, b: string, c: string)
    requires IsSuffix(a, b) && IsSuffix(b, c)
    ensures IsSuffix(a, c)
    ensures IsProperSuffix(a, b) || IsProperSuffix(b, c) ==> IsProperSuffix(a, c)
  {
    assert c[|c| - |b|..][|b| - |a|..] == c[|c| - |a|..];
  }

  predicate IsDigit(ch: char) {
    '0' <= ch <= '9'
  }

  /** The characters the whitespace skipper `sp` of `ws!` consumes. */
  predicate IsSpace(ch: char) {
    ch == ' ' || ch == '\t' || ch == '\r' || ch == '\n'
  }

  /** Length of the longest prefix of `s` whose characters all satisfy `p`. */
  function Span(p: char -> bool, s: string): (n: nat)
    ensures n <= |s|
    ensures forall i | 0 <= i < n :: p(s[i])
    ensures n < |s| ==> !p(s[n])
  {
    if s == [] || !p(s[0]) then 0 else 1 + Span(p, s[1..])
  }

  /** The whitespace skipper of `ws!`: skips spaces, tabs, CR and LF, and asks
      for more input when the input holds nothing else (the empty input
      included). A skipper that instead succeeded there would give this
      grammar the same outcomes: what follows an all-whitespace remainder is
      always a streaming `char!`, a streaming `tag!` or an atom on empty
      input, each of which asks for more, and under `sum` `complete!` turns
      either into an error. */
  function Sp(s: string): (r: Parsed<()>)
    ensures r.Fail? <==> forall i | 0 <= i < |s| :: IsSpace(s[i])
    ensures r.Fail? ==> r.failure == Incomplete
    ensures r.Done? ==> IsSuffix(r.rest, s) && |r.rest| > 0 && !IsSpace(r.rest[0])
    ensures r.Done? ==> forall i | 0 <= i < |s| - |r.rest| :: IsSpace(s[i])
  {
    var n := Span(IsSpace, s);
    if n == |s| then Fail(Incomplete) else Done(s[n..], ())
  }

  /** Streaming `tag!(t)`: succeeds on input starting with `t`; input that is
      a proper prefix of `t` (the empty input among them) asks for more;
      anything else is an error. */
  function Tag(t: string, s: string): (r: Parsed<string>)
    ensures r.Done? <==> t <= s
    ensures r.Done? ==> r.value == t && IsSuffix(r.rest, s) && |r.rest| == |s| - |t|
    ensures r == Fail(Incomplete) <==> |s| < |t| && s <= t
  {
    if t <= s then Done(s[|t|..], t)
    else if s <= t then Fail(Incomplete)
    else Fail(Error)
  }

  /** Streaming `char!(c)`: one character, or a request for more on empty input. */
  function Char(c: char, s: string): (r: Parsed<char>)
    ensures r.Done? <==> |s| > 0 && s[0] == c
    ensures r.Done? ==> r.value == c && r.rest == s[1..]
    ensures r.Fail? ==> (r.failure == Incomplete <==> s == [])
  {
    if s == [] then Fail(Incomplete)
    else if s[0] == c then Done(s[1..], c)
    else Fail(Error)
  }

  /** `ws!(char!(c))`: `sp`, then the character, then `sp` again. */
  function WsChar(c: char, s: string): (r: Parsed<char>)
    ensures r.Done? ==> IsProperSuffix(r.rest, s)
  {
    match Sp(s)
    case Fail(f) => Fail(f)
    case Done(s1, _) =>
      match Char(c, s1)
      case Fail(f) => Fail(f)
      case Done(s2, x) =>
        match Sp(s2)
        case Fail(f) => Fail(f)
        case Done(s3, _) =>
          SuffixTransitive(s2, s1, s);
          SuffixTransitive(s3, s2, s);
          Done(s3, x)
  }

  /** `ws!(tag!(t))`: `sp`, then the tag, then `sp` again. */
  function WsTag(t: string, s: string): (r: Parsed<string>)
    requires |t| > 0
    ensures r.Done? ==> IsProperSuffix(r.rest, s)
  {
    match Sp(s)
    case Fail(f) => Fail(f)
    case Done(s1, _) =>
      match Tag(t, s1)
      case Fail(f) => Fail(f)
      case Done(s2, x) =>
        match Sp(s2)
        case Fail(f) => Fail(f)
        case Done(s3, _) =>
          SuffixTransitive(s2, s1, s);
          SuffixTransitive(s3, s2, s);
          Done(s3, x)
  }

  /** A prefix that `p` accepts throughout is counted in full by `Span`. */
  lemma {:induction false} SpanAfterPrefix(p: char -> bool, w: string, s: string)
    requires forall i | 0 <= i < |w| :: p(w[i])
    ensures Span(p, w + s) == |w| + Span(p, s)
  {
    if w != [] {
      assert (w + s)[1..] == w[1..] + s;
      SpanAfterPrefix(p, w[1..], s);
    } else {
      assert w + s == s;
    }
  }

  /** Skipping leading whitespace first changes nothing `sp` would do. */
  lemma {:induction false} SpAfterSpace(w: string, s: string)
    requires forall i | 0 <= i < |w| :: IsSpace(w[i])
    ensures Sp(w + s) == Sp(s)
  {
    SpanAfterPrefix(IsSpace, w, s);
    assert (w + s)[|w| + Span(IsSpace, s)..] == s[Span(IsSpace, s)..];
  }

  /** `sp` leaves input that does not start with whitespace as it is. */
  lemma SpAtNonSpace(x: string)
    requires |x| > 0 && !IsSpace(x[0])
    ensures Sp(x) == Done(x, ())
  {
    assert Span(IsSpace, x) == 0;
  }

  /** `ws!(char!(c))` only sees its input through the first `sp`. */
  lemma WsCharSameSp(c: char, a: string, b: string)
    requires Sp(a) == Sp(b)
    ensures WsChar(c, a) == WsChar(c, b)
  {
  }

  /** `ws!(tag!(t))` only sees its input through the first `sp`. */
  lemma WsTagSameSp(t: string, a: string, b: string)
    requires |t| > 0 && Sp(a) == Sp(b)
    ensures WsTag(t, a) == WsTag(t, b)
  {
  }

  /** `ws!(char!(c))` on input that starts with `c`: what follows the
      character is handed to `sp`. */
  lemma WsCharAtOperator(c: char, x: string)
    requires |x| > 0 && x[0] == c && !IsSpace(c)
    ensures WsChar(c, x) == match Sp(x[1..]) case Fail(f) => Fail(f) case Done(r, _) => Done(r, c)
  {
    SpAtNonSpace(x);
  }

  /** `ws!(tag!(t))` on input that starts with `t`: what follows the tag is
      handed to `sp`. */
  lemma WsTagAtKeyword(t: string, x: string)
    requires |t| > 0 && t <= x && !IsSpace(t[0])
    ensures WsTag(t, x) == match Sp(x[|t|..]) case Fail(f) => Fail(f) case Done(r, _) => Done(r, t)
  {
    assert x[0] == t[0];
    SpAtNonSpace(x);
  }

  /** Once `ws!(char!(c))` has succeeded, `c` is what followed the leading
      whitespace. */
  lemma WsCharOperatorFirst(c: char, x: string)
    requires WsChar(c, x).Done?
    ensures Sp(x).Done? && Sp(x).rest[0] == c
  {
  }
}

=== FILE: reader.dfy ===
/** The dice-notation grammar: the syntax tree and one parser per grammar rule,
    each returning the input it did not consume together with the tree it
    built, or a failure that is either a recoverable `Error` or `Incomplete`. */
module Reader {
  import opened Nom

  type uint8 = x: int | 0 <= x < 0x100

  /** A scalar-producing node. */
  datatype Atom = ConstVal(c: uint8) | Roll(inner: Atom) | Sum(tuple: Tuple)

  /** A sequence-producing node: `count` dice, each rolled as `face`. */
  datatype Tuple = Dice(count: Atom, face: Atom)

  /** The parse root. */
  datatype Expr = AtomExpr(atom: Atom) | TupleExpr(tuple: Tuple)

  function DigitValue(ch: char): nat
    requires IsDigit(ch)
  {
    ch as int - '0' as int
  }

  /** The decimal value of a run of digits, read left to right as
      `u8::from_str_radix` does (leading zeros allowed). */
  function DigitsValue(d: string): (v: nat)
    requires forall i | 0 <= i < |d| :: IsDigit(d[i])
    ensures v < Pow10(|d|)
    ensures |d| > 0 && d[0] != '0' ==> Pow10(|d| - 1) <= v
  {
    if d == [] then 0
    else
      var init := d[..|d| - 1];
      assert |init| > 0 ==> init[0] == d[0];
      10 * DigitsValue(init) + DigitValue(d[|d| - 1])
  }

  function Pow10(n: nat): nat {
    if n == 0 then 1 else 10 * Pow10(n - 1)
  }

  lemma {:induction false} Pow10Grows(m: nat, n: nat)
    requires m <= n
    ensures Pow10(m) <= Pow10(n)
  {
    if m < n {
      Pow10Grows(m, n - 1);
    }
  }

  /** `constval`: the longest run of digits (`digit1`, which never asks for
      more input), converted to an 8-bit value; a value above 255 makes
      `map_res!` fail with a recoverable error. */
  function ParseConstval(s: string): (r: Parsed<Atom>)
    ensures r.Done? ==> IsProperSuffix(r.rest, s) && r.value.ConstVal?
    ensures r.Done? ==> |s| > 0 && IsDigit(s[0]) && !(|r.rest| > 0 && IsDigit(r.rest[0]))
    ensures r.Fail? ==> r.failure == Error
  {
    var n := Span(IsDigit, s);
    if n == 0 then Fail(Error)
    else
      var v := DigitsValue(s[..n]);
      if v <= 0xFF then Done(s[n..], ConstVal(v)) else Fail(Error)
  }

  /** `roll`: an optional `1`, the operator `d` with whitespace around it, and
      the atom giving the face count. The `1` is matched by a streaming tag,
      so empty input asks for more instead of skipping the option. */
  function ParseRoll(s: string): (r: Parsed<Atom>)
    decreases |s|, 1
    ensures r.Done? ==> IsProperSuffix(r.rest, s) && r.value.Roll?
  {
    var one := Tag("1", s);
    if one == Fail(Incomplete) then Fail(Incomplete)
    else
      var s1 := if one.Done? then one.rest else s;
      match WsChar('d', s1)
      case Fail(f) => Fail(f)
      case Done(s2, _) =>
        match ParseAtom(s2)
        case Fail(f) => Fail(f)
        case Done(s3, a) =>
          SuffixTransitive(s3, s2, s1);
          SuffixTransitive(s3, s1, s);
          Done(s3, Roll(a))
  }

  /** `sum`: the keyword with whitespace around it, then a tuple. Wrapped in
      `complete!`, so every failure it reports is recoverable. */
  function ParseSum(s: string): (r: Parsed<Atom>)
    decreases |s|, 1
    ensures r.Done? ==> IsProperSuffix(r.rest, s) && r.value.Sum?
    ensures r.Fail? ==> r.failure == Error
  {
    match WsTag("sum", s)
    case Fail(_) => Fail(Error)
    case Done(s1, _) =>
      match ParseTuple(s1)
      case Fail(_) => Fail(Error)
      case Done(s2, t) =>
        SuffixTransitive(s2, s1, s);
        Done(s2, Sum(t))
  }

  /** `atom_raw`: `roll`, else `constval`, else `sum`; a branch is abandoned
      only when it fails with a recoverable error. */
  function ParseAtomRaw(s: string): (r: Parsed<Atom>)
    decreases |s|, 2
    ensures r.Done? ==> IsProperSuffix(r.rest, s)
    ensures ParseRoll(s) != Fail(Error) ==> r == ParseRoll(s)
    ensures ParseRoll(s) == Fail(Error) && ParseConstval(s).Done? ==> r == ParseConstval(s)
    ensures ParseRoll(s) == Fail(Error) && ParseConstval(s).Fail? ==> r == ParseSum(s)
  {
    var r := ParseRoll(s);
    if r != Fail(Error) then r
    else
      var c := ParseConstval(s);
      if c != Fail(Error) then c else ParseSum(s)
  }

  /** `atom`: an `atom_raw`, else one wrapped in parentheses (no whitespace
      is allowed around them). */
  function ParseAtom(s: string): (r: Parsed<Atom>)
    decreases |s|, 3
    ensures r.Done? ==> IsProperSuffix(r.rest, s)
    ensures ParseAtomRaw(s) != Fail(Error) ==> r == ParseAtomRaw(s)
    ensures ParseAtomRaw(s) == Fail(Error) && !("(" <= s) ==> r == Fail(Error)
  {
    var r := ParseAtomRaw(s);
    if r != Fail(Error) then r
    else
      match Tag("(", s)
      case Fail(f) => Fail(f)
      case Done(s1, _) =>
        match ParseAtomRaw(s1)
        case Fail(f) => Fail(f)
        case Done(s2, a) =>
          match Tag(")", s2)
          case Fail(f) => Fail(f)
          case Done(s3, _) =>
            SuffixTransitive(s2, s1, s);
            SuffixTransitive(s3, s2, s);
            Done(s3, a)
  }

  /** `dice`: an atom giving the count, then a `roll`. The second child is
      the whole `Roll` node the roll parser built. */
  function ParseDice(s: string): (r: Parsed<Tuple>)
    decreases |s|, 4
    ensures r.Done? ==> IsProperSuffix(r.rest, s) && r.value.face.Roll?
    ensures r.Done? ==>
      (ParseAtom(s).Done? && r.value.count == ParseAtom(s).value &&
       ParseRoll(ParseAtom(s).rest) == Done(r.rest, r.value.face))
    ensures ParseAtom(s).Fail? ==> r.Fail? && r.failure == ParseAtom(s).failure
    ensures ParseAtom(s).Done? && ParseRoll(ParseAtom(s).rest).Fail? ==>
      r.Fail? && r.failure == ParseRoll(ParseAtom(s).rest).failure
    ensures ParseAtom(s).Done? && ParseRoll(ParseAtom(s).rest).Done? ==>
      r == Done(ParseRoll(ParseAtom(s).rest).rest,
                Dice(ParseAtom(s).value, ParseRoll(ParseAtom(s).rest).value))
  {
    match ParseAtom(s)
    case Fail(f) => Fail(f)
    case Done(s1, n) =>
      match ParseRoll(s1)
      case Fail(f) => Fail(f)
      case Done(s2, d) =>
        SuffixTransitive(s2, s1, s);
        Done(s2, Dice(n, d))
  }

  /** `tuple`: `dice` under `complete!`, which turns a request for more input
      into a recoverable error. */
  function ParseTuple(s: string): (r: Parsed<Tuple>)
    decreases |s|, 5
    ensures r.Done? ==> IsProperSuffix(r.rest, s) && r.value.face.Roll?
    ensures r.Fail? <==> ParseDice(s).Fail?
    ensures r.Fail? ==> r.failure == Error
    ensures ParseDice(s).Done? ==> r == ParseDice(s)
  {
    match ParseDice(s)
    case Fail(_) => Fail(Error)
    case Done(rest, t) => Done(rest, t)
  }

  /** `expr`: the tuple reading if there is one, else a lone atom. Because
      `tuple` never asks for more input, `alt!` always gets to the atom. */
  function ParseExpr(s: string): (r: Parsed<Expr>)
    ensures r.Done? ==> IsProperSuffix(r.rest, s)
    ensures ParseTuple(s).Done? ==> r == Done(ParseTuple(s).rest, TupleExpr(ParseTuple(s).value))
    ensures ParseTuple(s).Fail? && ParseAtom(s).Done? ==>
      r == Done(ParseAtom(s).rest, AtomExpr(ParseAtom(s).value))
    ensures r.Done? && r.value.AtomExpr? ==> ParseTuple(s).Fail? && ParseAtom(s).Done?
    ensures r.Fail? ==> ParseTuple(s).Fail? && ParseAtom(s) == Fail(r.failure)
    ensures ParseTuple(s).Fail? && ParseAtom(s).Fail? ==> r == Fail(ParseAtom(s).failure)
  {
    match ParseTuple(s)
    case Done(rest, t) => Done(rest, TupleExpr(t))
    case Fail(_) =>
      match ParseAtom(s)
      case Fail(f) => Fail(f)
      case Done(rest, a) => Done(rest, AtomExpr(a))
  }

  // ---------------------------------------------------------------------
  // Properties of the grammar

  predicate AllSpace(w: string) {
    forall i | 0 <= i < |w| :: IsSpace(w[i])
  }

  predicate AllDigits(d: string) {
    forall i | 0 <= i < |d| :: IsDigit(d[i])
  }

  /** `constval` takes the whole run of digits and nothing after it, and
      yields its value exactly when that value fits in 8 bits. */
  lemma {:induction false} ConstvalMaximalRun(d: string, rest: string)
    requires |d| > 0 && AllDigits(d)
    requires rest == [] || !IsDigit(rest[0])
    ensures ParseConstval(d + rest) ==
      if DigitsValue(d) <= 0xFF then Done(rest, ConstVal(DigitsValue(d))) else Fail(Error)
  {
    SpanAfterPrefix(IsDigit, d, rest);
    assert Span(IsDigit, rest) == 0;
    assert (d + rest)[..|d|] == d;
    assert (d + rest)[|d|..] == rest;
  }

  /** A leading `1` before the roll operator is inert: whatever follows it,
      unless that is itself a `1`, parses the same with or without it. */
  lemma RollOptionalOne(s: string)
    requires s == [] || s[0] != '1'
    ensures ParseRoll("1" + s) == ParseRoll(s)
  {
    assert Tag("1", "1" + s) == Done(s, "1");
    if s == [] {
      assert Sp(s) == Fail(Incomplete);
    } else {
      assert !("1" <= s);
      assert Tag("1", s) == Fail(Error);
    }
  }

  /** Two inputs on which the optional `1` fails alike and `ws!(char!('d'))`
      gives the same outcome parse the same as a roll. */
  lemma RollSameOperator(a: string, b: string)
    requires Tag("1", a) == Fail(Error) && Tag("1", b) == Fail(Error)
    requires WsChar('d', a) == WsChar('d', b)
    ensures ParseRoll(a) == ParseRoll(b)
  {
  }

  /** Whitespace in front of the operator `d` is skipped. */
  lemma WsCharSpaceBefore(w: string, x: string)
    requires AllSpace(w)
    ensures WsChar('d', w + x) == WsChar('d', x)
  {
    SpAfterSpace(w, x);
    WsCharSameSp('d', w + x, x);
  }

  /** Whitespace after the operator `d` is skipped. */
  lemma WsCharSpaceAfter(w: string, s: string)
    requires AllSpace(w)
    ensures WsChar('d', ['d'] + w + s) == WsChar('d', ['d'] + s)
  {
    var x := ['d'] + w + s;
    assert x[1..] == w + s;
    WsCharAtOperator('d', x);
    assert (['d'] + s)[1..] == s;
    WsCharAtOperator('d', ['d'] + s);
    SpAfterSpace(w, s);
  }

  /** Whitespace around the operator `d` is skipped. */
  lemma WsCharIgnoresSpace(w1: string, w2: string, s: string)
    requires AllSpace(w1) && AllSpace(w2)
    ensures WsChar('d', w1 + ['d'] + w2 + s) == WsChar('d', ['d'] + s)
  {
    assert w1 + ['d'] + w2 + s == w1 + (['d'] + w2 + s);
    WsCharSpaceBefore(w1, ['d'] + w2 + s);
    WsCharSpaceAfter(w2, s);
  }

  /** Whitespace before and after the roll operator changes nothing. */
  lemma RollIgnoresSpace(w1: string, w2: string, s: string)
    requires AllSpace(w1) && AllSpace(w2)
    ensures ParseRoll(w1 + ['d'] + w2 + s) == ParseRoll(['d'] + s)
  {
    var t := w1 + ['d'] + w2 + s;
    assert t[0] == if w1 == [] then 'd' else w1[0];
    assert Tag("1", t) == Fail(Error);
    assert Tag("1", ['d'] + s) == Fail(Error);
    WsCharIgnoresSpace(w1, w2, s);
    RollSameOperator(t, ['d'] + s);
  }

  /** Whitespace after the keyword `sum` is skipped. */
  lemma WsTagSpaceAfter(w: string, s: string)
    requires AllSpace(w)
    ensures WsTag("sum", "sum" + w + s) == WsTag("sum", "sum" + s)
  {
    var x := "sum" + w + s;
    assert x[3..] == w + s;
    WsTagAtKeyword("sum", x);
    assert ("sum" + s)[3..] == s;
    WsTagAtKeyword("sum", "sum" + s);
    SpAfterSpace(w, s);
  }

  /** Whitespace around the keyword `sum` is skipped. */
  lemma WsTagIgnoresSpace(w1: string, w2: string, s: string)
    requires AllSpace(w1) && AllSpace(w2)
    ensures WsTag("sum", w1 + "sum" + w2 + s) == WsTag("sum", "sum" + s)
  {
    var x := "sum" + w2 + s;
    assert w1 + "sum" + w2 + s == w1 + x;
    SpAfterSpace(w1, x);
    WsTagSameSp("sum", w1 + x, x);
    WsTagSpaceAfter(w2, s);
  }

  /** Whitespace before and after `sum` changes nothing. */
  lemma SumIgnoresSpace(w1: string, w2: string, s: string)
    requires AllSpace(w1) && AllSpace(w2)
    ensures ParseSum(w1 + "sum" + w2 + s) == ParseSum("sum" + s)
  {
    WsTagIgnoresSpace(w1, w2, s);
  }

  /** `sum` right at its keyword: whitespace is skipped, a tuple is read and
      wrapped; any failure on the way is recoverable. */
  lemma SumAtKeyword(s: string)
    ensures ParseSum("sum" + s) ==
      match Sp(s)
      case Fail(_) => Fail(Error)
      case Done(s1, _) =>
        match ParseTuple(s1)
        case Fail(_) => Fail(Error)
        case Done(r, t) => Done(r, Sum(t))
  {
    var x := "sum" + s;
    assert x[..3] == "sum";
    assert x[3..] == s;
    WsTagAtKeyword("sum", x);
  }

  /** `sum` needs its keyword: a success has `sum` right after the leading
      whitespace, and parses the same once that whitespace is skipped. */
  lemma SumNeedsKeyword(s: string)
    requires ParseSum(s).Done?
    ensures Sp(s).Done? && "sum" <= Sp(s).rest
    ensures ParseSum(Sp(s).rest) == ParseSum(s)
  {
    var s1 := Sp(s).rest;
    SpAtNonSpace(s1);
    WsTagSameSp("sum", s1, s);
  }

  /** Input that is whitespace and then the keyword `sum` is neither a roll
      nor a literal: both fail with a recoverable error. */
  lemma KeywordIsNoRollOrLiteral(w: string, k: string)
    requires AllSpace(w) && "sum" <= k
    ensures ParseRoll(w + k) == Fail(Error)
    ensures ParseConstval(w + k) == Fail(Error)
  {
    var t := w + k;
    assert k[0] == 's';
    assert t[0] == if w == [] then 's' else w[0];
    assert Tag("1", t) == Fail(Error);
    SpAfterSpace(w, k);
    SpAtNonSpace(k);
    WsCharSameSp('d', t, k);
    assert WsChar('d', k) == Fail(Error);
    assert Span(IsDigit, t) == 0;
  }

  /** `atom_raw` reaches its third branch: on the keyword `sum`, after any
      whitespace, `roll` and `constval` fail recoverably and `sum` decides. */
  lemma AtomRawOfSum(w: string, x: string)
    requires AllSpace(w)
    ensures ParseAtomRaw(w + "sum" + x) == ParseSum(w + "sum" + x)
  {
    assert w + "sum" + x == w + ("sum" + x);
    KeywordIsNoRollOrLiteral(w, "sum" + x);
  }

  /** Leading whitespace before a roll is skipped too, unless what follows it
      starts with the optional `1`, which must come first. */
  lemma RollAfterSpace(w: string, s: string)
    requires |w| > 0 && AllSpace(w)
    requires s == [] || s[0] != '1'
    ensures ParseRoll(w + s) == ParseRoll(s)
  {
    assert (w + s)[0] == w[0];
    assert Tag("1", w + s) == Fail(Error);
    SpAfterSpace(w, s);
    WsCharSameSp('d', w + s, s);
    if s == [] {
      assert w + s == w;
      assert Sp(w) == Fail(Incomplete);
      assert ParseRoll(w + s) == Fail(Incomplete);
      assert Tag("1", s) == Fail(Incomplete);
    } else {
      assert Tag("1", s) == Fail(Error);
      RollSameOperator(w + s, s);
    }
  }

  /** After a bare `d`, the roll parser skips whitespace and reads an atom. */
  lemma RollAtOperator(s: string)
    ensures ParseRoll("d" + s) ==
      match Sp(s)
      case Fail(f) => Fail(f)
      case Done(s1, _) =>
        match ParseAtom(s1)
        case Fail(f) => Fail(f)
        case Done(r, a) => Done(r, Roll(a))
  {
    var ds := "d" + s;
    assert ds[0] == 'd';
    assert Tag("1", ds) == Fail(Error);
    assert ds[1..] == s;
    WsCharAtOperator('d', ds);
  }

  /** A roll that parses with no leading `1` has found its operator. */
  lemma RollFoundOperator(s: string)
    requires ParseRoll(s).Done? && Tag("1", s) == Fail(Error)
    ensures WsChar('d', s).Done?
  {
  }

  /** A roll that parses still parses, the same way, once `sp` has skipped
      the whitespace in front of it. */
  lemma RollAfterSp(s: string)
    requires ParseRoll(s).Done?
    ensures Sp(s).Done? && ParseRoll(Sp(s).rest) == ParseRoll(s)
  {
    var n := Span(IsSpace, s);
    if n == 0 {
      SpAtNonSpace(s);
    } else {
      assert Tag("1", s) == Fail(Error);
      RollFoundOperator(s);
      WsCharOperatorFirst('d', s);
      RollAfterLeadingSpace(s, n);
    }
  }

  /** The case of `RollAfterSp` where there is whitespace to skip. */
  lemma RollAfterLeadingSpace(s: string, n: nat)
    requires 0 < n < |s| && n == Span(IsSpace, s) && s[n] == 'd'
    ensures ParseRoll(s[n..]) == ParseRoll(s) && Sp(s) == Done(s[n..], ())
  {
    var s' := s[n..];
    var w := s[..n];
    assert s == w + s';
    RollAfterSpace(w, s');
  }

  /** Where a roll parses, the atom rule takes that roll. */
  lemma AtomTakesRoll(s: string)
    requires ParseRoll(s).Done?
    ensures ParseAtom(s) == ParseRoll(s)
  {
    assert ParseAtomRaw(s) == ParseRoll(s);
  }

  /** Rolls nest: a `d` in front of a roll makes that roll the face count of
      a new roll. */
  lemma RollNests(s: string)
    requires ParseRoll(s).Done?
    ensures ParseRoll("d" + s) == Done(ParseRoll(s).rest, Roll(ParseRoll(s).value))
  {
    RollAtOperator(s);
    RollAfterSp(s);
    AtomTakesRoll(Sp(s).rest);
  }

  /** A `d` in front of any atom that does not start with whitespace makes
      that atom the face count of a roll, with the atom's remainder. */
  lemma RollOfAtom(s: string)
    requires |s| > 0 && !IsSpace(s[0]) && ParseAtom(s).Done?
    ensures ParseRoll("d" + s) == Done(ParseAtom(s).rest, Roll(ParseAtom(s).value))
  {
    RollAtOperator(s);
    SpAtNonSpace(s);
  }

  /** Input opening with `(` is none of the three bare atom forms. */
  lemma OpenParenIsNoAtomRaw(x: string)
    ensures ParseAtomRaw("(" + x) == Fail(Error)
  {
    var s := "(" + x;
    assert s[0] == '(';
    SpAtNonSpace(s);
    assert Tag("1", s) == Fail(Error);
    assert ParseRoll(s) == Fail(Error);
    assert Span(IsDigit, s) == 0;
    assert Tag("sum", s) == Fail(Error);
  }

  /** The parenthesised form of `atom`: an `atom_raw` between `(` and `)`
      is that atom, with what follows the `)` left over. */
  lemma ParenthesisedAtom(x: string)
    requires ParseAtomRaw(x).Done?
    requires |ParseAtomRaw(x).rest| > 0 && ParseAtomRaw(x).rest[0] == ')'
    ensures ParseAtom("(" + x) == Done(ParseAtomRaw(x).rest[1..], ParseAtomRaw(x).value)
  {
    OpenParenIsNoAtomRaw(x);
    assert Tag("(", "(" + x) == Done(x, "(");
    var s2 := ParseAtomRaw(x).rest;
    assert Tag(")", s2) == Done(s2[1..], ")");
  }

  /** What `atom` does once `atom_raw` has failed recoverably and `atom`
      still succeeds, in terms of the two tags. */
  lemma AtomAfterRawError(s: string)
    requires ParseAtom(s).Done? && ParseAtomRaw(s) == Fail(Error)
    ensures Tag("(", s).Done? && ParseAtomRaw(Tag("(", s).rest).Done?
    ensures ParseAtomRaw(Tag("(", s).rest).value == ParseAtom(s).value
    ensures Tag(")", ParseAtomRaw(Tag("(", s).rest).rest) == Done(ParseAtom(s).rest, ")")
  {
  }

  /** After `(`, the bare forms have all failed and the tag has consumed
      exactly the parenthesis. */
  lemma ParenStep(x: string)
    ensures ParseAtomRaw("(" + x) == Fail(Error) && Tag("(", "(" + x) == Done(x, "(")
  {
    OpenParenIsNoAtomRaw(x);
    assert ("(" + x)[1..] == x;
  }

  /** How the parenthesised form of `atom` fails: an inner `atom_raw` failure
      is passed on with its kind; a missing `)` at the end of the input asks
      for more; anything else where `)` should be is a recoverable error. */
  lemma ParenthesisedAtomFails(x: string)
    ensures ParseAtomRaw(x).Fail? ==> ParseAtom("(" + x) == ParseAtomRaw(x)
    ensures ParseAtomRaw(x).Done? && ParseAtomRaw(x).rest == [] ==>
      ParseAtom("(" + x) == Fail(Incomplete)
    ensures ParseAtomRaw(x).Done? && |ParseAtomRaw(x).rest| > 0 && ParseAtomRaw(x).rest[0] != ')' ==>
      ParseAtom("(" + x) == Fail(Error)
  {
    ParenStep(x);
    if ParseAtomRaw(x).Done? {
      var s2 := ParseAtomRaw(x).rest;
      if s2 == [] {
        assert Tag(")", s2) == Fail(Incomplete);
      } else if s2[0] != ')' {
        assert !(")" <= s2) && !(s2 <= ")");
        assert Tag(")", s2) == Fail(Error);
      }
    }
  }

  /** `roll` on input that is empty or all whitespace asks for more: the
      streaming tag for the optional `1` cannot decide yet. */
  lemma RollAtEnd(w: string)
    requires AllSpace(w)
    ensures ParseRoll(w) == Fail(Incomplete)
  {
    assert Tag("1", []) == Fail(Incomplete);
    if w != [] {
      RollAfterSpace(w, []);
      assert w + [] == w;
    }
  }

  /** The converse of `ParenthesisedAtom`: an atom that is no bare
      `atom_raw` is an `atom_raw` between `(` and `)`. */
  lemma AtomParenthesisedOnly(s: string)
    requires ParseAtom(s).Done? && ParseAtomRaw(s) == Fail(Error)
    ensures "(" <= s && ParseAtomRaw(s[1..]).Done?
    ensures ParseAtomRaw(s[1..]).value == ParseAtom(s).value
    ensures ParseAtomRaw(s[1..]).rest == [')'] + ParseAtom(s).rest
  {
    AtomAfterRawError(s);
    var s1 := Tag("(", s).rest;
    assert s1 == s[1..];
    var s2 := ParseAtomRaw(s1).rest;
    assert ")" <= s2 && s2[1..] == ParseAtom(s).rest;
    assert s2 == [')'] + s2[1..];
  }

  /** A run of digits other than `1` alone, followed by anything but a digit,
      is no roll: the roll parser fails on it with a recoverable error. */
  lemma RollRejectsLiteral(d: string, rest: string)
    requires |d| > 0 && AllDigits(d) && d != "1"
    requires rest == [] || !IsDigit(rest[0])
    ensures ParseRoll(d + rest) == Fail(Error)
  {
    var s := d + rest;
    assert s[0] == d[0];
    if d[0] == '1' {
      assert Tag("1", s) == Done(s[1..], "1");
      assert s[1..][0] == d[1];
      SpAtNonSpace(s[1..]);
    } else {
      assert Tag("1", s) == Fail(Error);
      SpAtNonSpace(s);
    }
  }

  /** Four or more digits without a leading zero never fit in 8 bits, so
      `constval` rejects them. */
  lemma LongLiteralRejected(d: string, rest: string)
    requires |d| >= 4 && AllDigits(d) && d[0] != '0'
    requires rest == [] || !IsDigit(rest[0])
    ensures DigitsValue(d) > 0xFF
    ensures ParseConstval(d + rest) == Fail(Error)
  {
    Pow10Grows(3, |d| - 1);
    assert Pow10(1) == 10 && Pow10(2) == 100 && Pow10(3) == 1000;
    assert DigitsValue(d) >= 1000;
    ConstvalMaximalRun(d, rest);
  }

  /** A literal that fits in 8 bits, other than `1` alone, is read by the atom
      rule as a constant, leaving what follows its digits. */
  lemma AtomOfLiteral(d: string, rest: string)
    requires |d| > 0 && AllDigits(d) && d != "1" && DigitsValue(d) <= 0xFF
    requires rest == [] || !IsDigit(rest[0])
    ensures ParseAtom(d + rest) == Done(rest, ConstVal(DigitsValue(d)))
  {
    ConstvalMaximalRun(d, rest);
    RollRejectsLiteral(d, rest);
    assert ParseAtomRaw(d + rest) == Done(rest, ConstVal(DigitsValue(d)));
  }

  /** A literal that fits in 8 bits is read as a bare constant, with one
      exception: the literal `1` alone, which the roll rule takes for its
      optional leading `1` and then asks for more input. */
  lemma LiteralParses(d: string)
    requires |d| > 0 && AllDigits(d) && DigitsValue(d) <= 0xFF
    requires d != "1"
    ensures ParseExpr(d) == Done([], AtomExpr(ConstVal(DigitsValue(d))))
  {
    assert d + [] == d;
    AtomOfLiteral(d, []);
    assert ParseRoll([]) == Fail(Incomplete);
    assert ParseDice(d) == Fail(Incomplete);
  }
}

=== FILE: reader_tests.dfy ===
/** The in-file test cases of the grammar, proved about the model. Each step
    is a lemma of its own: a parser applied to a string literal is unfolded
    by the verifier, so every proof here keeps to one small step. */
module ReaderTests {
  import opened Nom
  import opened Reader

  /** How the test inputs with more than one piece split into the pieces the
      general lemmas speak of. */
  lemma Splits()
    ensures "dd6" == "d" + "d6"
    ensures " sum  3d6" == " " + "sum" + "  " + "3d6" && "sum3d6" == "sum" + "3d6"
    ensures "sum 3d6" == "" + "sum" + " " + "3d6"
    ensures " d d6" == " " + ['d'] + " " + "d6" && ['d'] + "d6" == "dd6"
    ensures " d 6" == " " + ['d'] + " " + "6" && ['d'] + "6" == "d6"
    ensures "(1d6) d d6" == "(" + "1d6) d d6" && ") d d6"[1..] == " d d6"
  {
  }

  /** The values of the literals in the test inputs. */
  lemma DigitsValues()
    ensures DigitsValue("3") == 3 && DigitsValue("6") == 6
    ensures DigitsValue("123") == 123 && DigitsValue("1234") == 1234
  {
    assert "123"[..2] == "12" && "12"[..1] == "1";
    assert "1234"[..3] == "123";
  }

  /** `constval` examples: a whole literal, a literal followed by letters,
      and a literal too large for 8 bits. */
  lemma ConstvalExamples()
    ensures ParseConstval("123") == Done("", ConstVal(123))
    ensures ParseConstval("123abc") == Done("abc", ConstVal(123))
    ensures ParseConstval("1234") == Fail(Error)
  {
    DigitsValues();
    assert "123" + "" == "123";
    ConstvalMaximalRun("123", "");
    assert "123" + "abc" == "123abc";
    ConstvalMaximalRun("123", "abc");
    assert "1234" + "" == "1234";
    ConstvalMaximalRun("1234", "");
  }

  lemma AtomSix()
    ensures ParseAtom("6") == Done("", ConstVal(6))
  {
    DigitsValues();
    assert "6" == "6" + "";
    AtomOfLiteral("6", "");
  }

  lemma RollSix()
    ensures ParseRoll("d6") == Done("", Roll(ConstVal(6)))
  {
    assert "d6" == "d" + "6";
    RollAtOperator("6");
    SpAtNonSpace("6");
    AtomSix();
  }

  lemma RollOneSixStep()
    ensures ParseRoll("1d6") == ParseRoll("d6")
  {
    assert "1d6" == "1" + "d6";
    RollOptionalOne("d6");
  }

  lemma RollOneSix()
    ensures ParseRoll("1d6") == Done("", Roll(ConstVal(6)))
  {
    RollOneSixStep();
    RollSix();
  }

  lemma RollRollSixStep()
    requires ParseRoll("d6").Done?
    ensures ParseRoll("dd6") == Done(ParseRoll("d6").rest, Roll(ParseRoll("d6").value))
  {
    Splits();
    RollNests("d6");
  }

  lemma RollRollSix()
    ensures ParseRoll("dd6") == Done("", Roll(Roll(ConstVal(6))))
  {
    RollSix();
    RollRollSixStep();
  }

  /** `roll` examples: with and without the leading `1`, and nested. */
  lemma RollExamples()
    ensures ParseRoll("1d6") == Done("", Roll(ConstVal(6)))
    ensures ParseRoll("d6") == Done("", Roll(ConstVal(6)))
    ensures ParseRoll("dd6") == Done("", Roll(Roll(ConstVal(6))))
  {
    RollOneSix();
    RollSix();
    RollRollSix();
  }

  lemma AtomThreeBeforeRoll()
    ensures ParseAtom("3d6") == Done("d6", ConstVal(3))
  {
    DigitsValues();
    assert "3d6" == "3" + "d6";
    AtomOfLiteral("3", "d6");
  }

  lemma DiceThreeSix()
    ensures ParseDice("3d6") == Done("", Dice(ConstVal(3), Roll(ConstVal(6))))
  {
    AtomThreeBeforeRoll();
    RollSix();
  }

  lemma SumStep()
    ensures ParseSum(" sum  3d6") == ParseSum("sum3d6")
  {
    assert AllSpace(" ") && AllSpace("  ");
    SumIgnoresSpace(" ", "  ", "3d6");
    Splits();
  }

  lemma KeywordSum()
    ensures WsTag("sum", "sum3d6") == Done("3d6", "sum")
  {
    WsTagAtKeyword("sum", "sum3d6");
    assert "sum3d6"[3..] == "3d6";
    SpAtNonSpace("3d6");
  }

  lemma SumThreeSix()
    ensures ParseSum("sum3d6") == Done("", Sum(Dice(ConstVal(3), Roll(ConstVal(6)))))
  {
    KeywordSum();
    DiceThreeSix();
  }

  /** `sum` example: whitespace before and after the keyword. */
  lemma SumExample()
    ensures ParseSum(" sum  3d6") == Done("", Sum(Dice(ConstVal(3), Roll(ConstVal(6)))))
  {
    SumStep();
    SumThreeSix();
  }

  lemma AtomSixBeforeParen()
    ensures ParseAtom("6) d d6") == Done(") d d6", ConstVal(6))
  {
    DigitsValues();
    assert "6) d d6" == "6" + ") d d6";
    AtomOfLiteral("6", ") d d6");
  }

  lemma RollSixBeforeParen()
    ensures ParseRoll("d6) d d6") == Done(") d d6", Roll(ConstVal(6)))
  {
    assert "d6) d d6" == "d" + "6) d d6";
    RollAtOperator("6) d d6");
    SpAtNonSpace("6) d d6");
    AtomSixBeforeParen();
  }

  lemma RollOneSixBeforeParen()
    ensures ParseAtomRaw("1d6) d d6") == Done(") d d6", Roll(ConstVal(6)))
  {
    assert "1d6) d d6" == "1" + "d6) d d6";
    RollOptionalOne("d6) d d6");
    RollSixBeforeParen();
  }

  lemma Parentheses()
    ensures Tag("(", "(1d6) d d6") == Done("1d6) d d6", "(")
    ensures Tag(")", ") d d6") == Done(" d d6", ")")
    ensures Tag("(", "1234") == Fail(Error)
  {
    assert "(1d6) d d6"[1..] == "1d6) d d6";
    assert ") d d6"[1..] == " d d6";
    assert "1234"[0] != "("[0];
  }

  lemma ParenthesisedRoll()
    ensures ParseAtom("(1d6) d d6") == Done(" d d6", Roll(ConstVal(6)))
  {
    Splits();
    RollOneSixBeforeParen();
    ParenthesisedAtom("1d6) d d6");
  }

  lemma SpacedRollRollStep()
    ensures ParseRoll(" d d6") == ParseRoll("dd6")
  {
    assert AllSpace(" ");
    RollIgnoresSpace(" ", " ", "d6");
    Splits();
  }

  lemma NestedDice()
    ensures ParseDice("(1d6) d d6") ==
      Done("", Dice(Roll(ConstVal(6)), Roll(Roll(ConstVal(6)))))
  {
    ParenthesisedRoll();
    SpacedRollRollStep();
    RollRollSix();
  }

  lemma AtomThreeBeforeSpacedRoll()
    ensures ParseAtom("3 d 6") == Done(" d 6", ConstVal(3))
  {
    DigitsValues();
    assert "3 d 6" == "3" + " d 6";
    AtomOfLiteral("3", " d 6");
  }

  lemma SpacedRollStep()
    ensures ParseRoll(" d 6") == ParseRoll("d6")
  {
    assert AllSpace(" ");
    RollIgnoresSpace(" ", " ", "6");
    Splits();
  }

  lemma SpacedDice()
    ensures ParseDice("3 d 6") == Done("", Dice(ConstVal(3), Roll(ConstVal(6))))
  {
    AtomThreeBeforeSpacedRoll();
    SpacedRollStep();
    RollSix();
  }

  lemma AtomThreeBeforeOperator()
    ensures ParseAtom("3d") == Done("d", ConstVal(3))
  {
    DigitsValues();
    assert "3d" == "3" + "d";
    AtomOfLiteral("3", "d");
  }

  lemma RollWithoutFace()
    ensures ParseRoll("d") == Fail(Incomplete)
  {
    assert "d" == "d" + "";
    RollAtOperator("");
  }

  lemma DiceWithoutFace()
    ensures ParseDice("3d") == Fail(Incomplete)
  {
    AtomThreeBeforeOperator();
    RollWithoutFace();
  }

  /** `dice` examples: whitespace around the operator is ignored, a
      parenthesised roll can be the count, and a missing face count asks for
      more input. */
  lemma DiceExamples()
    ensures ParseDice("3d6") == Done("", Dice(ConstVal(3), Roll(ConstVal(6))))
    ensures ParseDice("3 d 6") == ParseDice("3d6")
    ensures ParseDice("(1d6) d d6") ==
      Done("", Dice(Roll(ConstVal(6)), Roll(Roll(ConstVal(6)))))
    ensures ParseDice("3d") == Fail(Incomplete)
  {
    DiceThreeSix();
    SpacedDice();
    NestedDice();
    DiceWithoutFace();
  }

  lemma RollSixAlone()
    ensures ParseDice("d6") == Fail(Incomplete)
  {
    RollSix();
    AtomTakesRoll("d6");
    assert ParseRoll("") == Fail(Incomplete);
  }

  /** `expr` examples: the tuple reading wins when there is one; a lone roll
      falls back to the atom reading. */
  lemma ExprExamples()
    ensures ParseExpr("(1d6) d d6") ==
      Done("", TupleExpr(Dice(Roll(ConstVal(6)), Roll(Roll(ConstVal(6))))))
    ensures ParseExpr("d6") == Done("", AtomExpr(Roll(ConstVal(6))))
  {
    NestedDice();
    RollSix();
    AtomTakesRoll("d6");
    RollSixAlone();
  }

  lemma AtomOneIsIncomplete()
    ensures ParseAtom("1") == Fail(Incomplete)
  {
    assert "1" == "1" + "";
    RollOptionalOne("");
    assert ParseRoll("") == Fail(Incomplete);
    assert ParseAtomRaw("1") == Fail(Incomplete);
  }

  /** The literal `1` alone does not parse: the roll rule takes it for the
      optional `1` before `d`, finds the end of the input and asks for more,
      and `alt!` does not fall back to `constval` on that. */
  lemma LiteralOneIsIncomplete()
    ensures ParseExpr("1") == Fail(Incomplete)
  {
    AtomOneIsIncomplete();
  }

  lemma RollFaceOneAtEnd()
    ensures ParseRoll("d1") == Fail(Incomplete)
  {
    assert "d1" == "d" + "1";
    RollAtOperator("1");
    SpAtNonSpace("1");
    AtomOneIsIncomplete();
  }

  /** `d1` does not parse: the face count `1` is taken for the optional `1`
      of a nested roll, which then asks for more input. */
  lemma FaceOneIsIncomplete()
    ensures ParseExpr("d1") == Fail(Incomplete)
  {
    RollFaceOneAtEnd();
    assert ParseAtomRaw("d1") == Fail(Incomplete);
  }

  lemma AtomThreeBeforeFaceOne()
    ensures ParseAtom("3d1") == Done("d1", ConstVal(3))
  {
    DigitsValues();
    assert "3d1" == "3" + "d1";
    AtomOfLiteral("3", "d1");
  }

  lemma DiceFaceOneAtEnd()
    ensures ParseDice("3d1") == Fail(Incomplete)
  {
    AtomThreeBeforeFaceOne();
    RollFaceOneAtEnd();
  }

  /** `3d1` has no tuple reading, for the same reason as `d1`; the atom
      reading takes the `3` and leaves `d1` unread. */
  lemma TrailingFaceOne()
    ensures ParseExpr("3d1") == Done("d1", AtomExpr(ConstVal(3)))
  {
    DiceFaceOneAtEnd();
    AtomThreeBeforeFaceOne();
  }

  lemma RollRejectsTooLarge()
    ensures ParseRoll("1234") == Fail(Error)
  {
    var s := "1234";
    assert Tag("1", s) == Done("234", "1");
    SpAtNonSpace("234");
  }

  lemma SumRejectsTooLarge()
    ensures ParseSum("1234") == Fail(Error)
  {
    SpAtNonSpace("1234");
    assert Tag("sum", "1234") == Fail(Error);
  }

  lemma AtomRawRejectsTooLarge()
    ensures ParseAtomRaw("1234") == Fail(Error)
  {
    RollRejectsTooLarge();
    ConstvalExamples();
    SumRejectsTooLarge();
  }

  lemma AtomRejectsTooLarge()
    ensures ParseAtom("1234") == Fail(Error)
  {
    AtomRawRejectsTooLarge();
    Parentheses();
  }

  /** A literal above 255 is rejected, whichever reading is tried. */
  lemma TooLargeLiteral()
    ensures ParseExpr("1234") == Fail(Error)
  {
    AtomRejectsTooLarge();
  }

  /** With nothing after the operator, `3d` has no tuple reading, but the
      atom reading takes the `3` and leaves the `d` unread. */
  lemma TrailingOperator()
    ensures ParseExpr("3d") == Done("d", AtomExpr(ConstVal(3)))
  {
    DiceWithoutFace();
    AtomThreeBeforeOperator();
  }
}
